=== FILE: README.md ===
# DocGen workspace: a Dafny model

This project models the state logic of a small document-drafting web
application. A user signs in, chats with a text-generation provider, and
reads and edits the generated document in a preview pane. A sidebar keeps a
list of earlier generations ("history"). The model covers:

- **The generation service** (`GeminiService`). `generateDocument` and
  `refineDocument` each call an external provider. When the API key is
  missing or the call throws, they fall back to locally built text. The
  provider is a total function from the request to an outcome,
  `Replied(text)` or `Failed`. Each function returns its promise as a
  `Settled` value.
- **The Dashboard's pane layout** (`Layout`): which panes are open, and the
  drag-to-resize rule for the preview pane.
- **The history list** (`History`): delete, rename, case-insensitive search,
  and the title rule for new entries.
- **The Dashboard workspace** (`Workspace`): the transcript, the document,
  the flags, and every handler. Each `async` handler is split into a
  synchronous `Begin` step and a `Settle` step that takes the settled
  promise. `Workspace.Step` and `Workspace.Run` replay any interleaving of
  these steps.
- **The forms** (`Identity`): how Login and Signup turn a submitted username,
  or a Google profile, into the identity handed to the app.
- **The application shell** (`App`): three screens, the language toggle,
  and login and logout. `App.Step` offers each intent only on the screen
  that renders its control.

Shared helpers: `Text` models the ECMAScript `trim`, `toLowerCase`,
`includes` and `slice` operations the code uses. `Seqs` models
`Array.prototype.filter`. `Wrappers` and `Locale` hold small shared types.

Clock-derived message and entry ids (`Date.now()`) are parameters. The API
key (`process.env.API_KEY`) is an `Option<string>` parameter. The provider's
answer is a function parameter. The Google sign-in and the userinfo fetch
are passed in as an outcome value.

## Behaviour worth noting

- A send has no single-flight guard. Only the Send button is disabled while
  loading; the Enter key always calls the send handler. See
  `Workspace.NoSingleFlight`. The Regenerate button of the preview
  (components/Dashboard.tsx:607) also calls the send handler while a request
  is loading; it is disabled only when the document is empty.
- Auto-correct has no guard either. The handler checks only that the
  document is non-empty (components/Dashboard.tsx:278), and its button is
  disabled only for an empty document (components/Dashboard.tsx:536), so two
  refines can overlap. `Workspace.BeginAutoCorrect` starts one whatever
  `isRefining` is.
- There is no active session. A successful send never updates an existing
  entry: it always prepends a new one. Deleting an entry never touches the
  live transcript or document.
- The resize rule does not clamp. A proposed width outside (20, 80) is
  dropped, and the previous width is kept (`Layout.DragPastBoundKeepsWidth`).
- A new entry's title is the first 20 characters of the prompt, followed by
  "..." when the prompt is longer (`History.SeaPoemTitle`).
- New Chat does not clear the prompt draft.

## Model

| member | source | states |
|---|---|---|
| Text.Trim | components/Dashboard.tsx:201 | `trim()` returns a string no longer than its input that neither starts nor ends with ECMAScript whitespace |
| Text.TrimKeepsMiddle | components/Dashboard.tsx:201 | `trim()` returns a contiguous part of its input, and every character cut off before or after that part is ECMAScript whitespace |
| Text.Prefix | components/Dashboard.tsx:264 | `slice(0, n)` returns the first `n` characters, or the whole string when it is shorter, as a prefix of it |
| Text.Lower | components/Dashboard.tsx:229-230 | `toLowerCase()` keeps the length and maps each character on its own, lowering A-Z and keeping every other character |
| Seqs.Filter | components/Dashboard.tsx:189 | `filter` keeps every element satisfying the predicate and only elements of the input that satisfy it |
| Text.TrimEmptyIffBlank | components/Dashboard.tsx:237 | `s.trim()` is the empty (falsy) string exactly when every character of `s` is ECMAScript whitespace |
| Text.Includes | components/Dashboard.tsx:229-230 | `includes` finds a needle the haystack starts with (the empty needle among them), and never finds one longer than the haystack |
| Text.IncludesIffContains | components/Dashboard.tsx:228-231 | the left-to-right `includes` search succeeds exactly when the needle occurs at some position of the haystack |
| Seqs.FilterIsSubsequence | components/Dashboard.tsx:228-231 | `filter` keeps the surviving entries in their original relative order |
| Seqs.FilterConcat | components/Dashboard.tsx:189 | filtering a concatenation filters each part and concatenates the results in order |
| GeminiService.GetAIClient | services/geminiService.ts:4-10 | a client exists exactly when the key is present and non-empty; otherwise the call throws "API Key is missing" |
| GeminiService.GenerationPrompt | services/geminiService.ts:28 | the prompt starts with "Write a ", the kind and " about the following topic: \"", ends with "\".", has exactly the frame's length plus the kind's and the topic's, and the topic reads back from it |
| GeminiService.GenerationPromptInjective | services/geminiService.ts:28 | two prompts for the same kind are equal exactly when their topics are, so the topic is passed verbatim |
| GeminiService.GenerateRequest | services/geminiService.ts:28-37 | the request uses model `gemini-2.5-flash`, temperature 0.7, the writer's system instruction for the chosen language, and contents that open with the kind in the fixed wording, close the quotation and carry the topic verbatim in between |
| GeminiService.NoTextDefault | services/geminiService.ts:39 | the default text for an empty response is never empty |
| GeminiService.FramedDocumentNamesTopic | services/geminiService.ts:46-50 | any document laid out like the fallback template (heading, topic, text, quoted topic, text) opens with the heading and the topic, and quotes the topic after them |
| GeminiService.MockDocument | services/geminiService.ts:46-50 | the fallback document opens with the language's heading (`# Mock Document: ` or the Thai one) followed by the topic, and quotes the topic again in its body |
| GeminiService.TryGenerate | services/geminiService.ts:13-39 | the `try` body rejects exactly when no client can be built or the provider call throws |
| GeminiService.GenerateDocument | services/geminiService.ts:12-52 | the promise always resolves with non-empty text: the provider's text if non-empty, the language default if empty, the fallback document on any failure |
| GeminiService.RefineRequest | services/geminiService.ts:64-71 | the request uses model `gemini-2.5-flash`, temperature 0.3, the editor's system instruction for the chosen language, and contents that are a fixed preamble followed by the unchanged document |
| GeminiService.TryRefine | services/geminiService.ts:55-73 | the `try` body rejects exactly when no client can be built or the provider call throws |
| GeminiService.RefineDocument | services/geminiService.ts:54-79 | the promise always resolves: with the provider's non-empty text, with the unchanged content on an empty reply, or with the content plus the language's marker on failure; non-empty content never yields empty text |
| GeminiService.RefineNeverDiscardsContent | services/geminiService.ts:73-77 | refining either adopts the provider's non-empty reply or keeps the original content as a prefix |
| Layout.CheckMobile | components/Dashboard.tsx:63-69 | the layout is mobile exactly when the viewport is narrower than 768 pixels; nothing else changes |
| Layout.StartResizing | components/Dashboard.tsx:157-160 | pressing the handle starts a gesture and changes nothing else |
| Layout.StopResizing | components/Dashboard.tsx:162-164 | releasing the pointer ends the gesture and changes nothing else |
| Layout.Resize | components/Dashboard.tsx:166-174 | the width changes only during a gesture and only to a value strictly between 20 and 80; an in-range proposal `(right - x) / width * 100` is adopted exactly; an out-of-range proposal, or none (zero-width container), leaves the panes unchanged rather than clamping; the width only ever takes the value proposed; nothing else changes |
| Layout.SetSidebar | components/Dashboard.tsx:340-465 | the sidebar's close button (line 340) and the header's open button (line 465) set only the sidebar flag |
| Layout.OpenPreview | components/Dashboard.tsx:478 | Open Preview sets only the preview flag |
| Layout.ClosePreview | components/Dashboard.tsx:591 | Close Preview closes the preview and leaves full-screen mode, and changes nothing else |
| Layout.ToggleFullPreview | components/Dashboard.tsx:614 | the full-screen button flips only the full-screen flag |
| Layout.TapBackdrop | components/Dashboard.tsx:322 | tapping the backdrop closes both the sidebar and the preview |
| Layout.RenderedWidth | components/Dashboard.tsx:585 | the preview gets an explicit width exactly when it is open, not full-screen and not on mobile, and that width is `previewWidth` percent |
| Layout.InitialWidthInBounds | components/Dashboard.tsx:59 | the initial preview width of 45 percent is strictly between 20 and 80 |
| Layout.StepRunsHandler | components/Dashboard.tsx:63-183 | every layout event runs its handler: the window's `resize` listener runs `checkMobile`, pressing the handle runs `startResizing`, and the window's `mousemove` and `mouseup` listeners run `resize` and `stopResizing`; the sidebar, preview and backdrop buttons (lines 322-614) run their own setters |
| Layout.RunKeepsWidthInBounds | components/Dashboard.tsx:166-174 | no sequence of layout events moves the width out of (20, 80) once it is inside |
| Layout.WidthFrozenWithoutGesture | components/Dashboard.tsx:166-174 | without pressing the handle, pointer moves never change the width |
| Layout.DragToSeventyPercent | components/Dashboard.tsx:169-171 | with a 1000-pixel container and the pointer at 300, the width becomes 70 |
| Layout.DragPastBoundKeepsWidth | components/Dashboard.tsx:169-172 | dragging to the container's left edge asks for 100 percent, and the panes stay exactly as they were |
| History.EntryTitle | components/Dashboard.tsx:264 | a prompt of at most 20 characters is the title itself; a longer one gives its first 20 characters followed by `...` |
| History.EntryTitleShape | components/Dashboard.tsx:264 | a title never exceeds 23 characters and starts with the prompt's first characters |
| History.SeaPoemTitle | components/Dashboard.tsx:264 | "Write a poem about the sea" gets the title "Write a poem about t..." |
| History.Delete | components/Dashboard.tsx:189 | deletion keeps exactly the entries with a different id, in their original order |
| History.DeleteIdempotent | components/Dashboard.tsx:189 | deleting twice equals deleting once, and deleting an absent id changes nothing |
| History.DeleteFront | components/Dashboard.tsx:189 | deletion treats a prepended entry on its own and the rest of the list unchanged |
| History.Rename | components/Dashboard.tsx:202 | renaming keeps the length, ids and previews, and gives the new title to exactly the entries with the id |
| History.RenameIdempotent | components/Dashboard.tsx:202 | renaming again with the same title changes nothing more |
| History.Search | components/Dashboard.tsx:228-231 | the result is an order-preserving subsequence of the list, holding exactly the entries that match the query |
| History.MatchesIffOccurs | components/Dashboard.tsx:228-231 | an entry matches exactly when the lower-cased query occurs in its lower-cased title or in its lower-cased preview |
| History.SearchEmptyKeepsAll | components/Dashboard.tsx:228-231 | the empty query keeps every entry |
| History.SearchIgnoresCase | components/Dashboard.tsx:228-231 | queries that lower-case alike select the same entries |
| History.SearchLowered | components/Dashboard.tsx:228-231 | searching for the lower-cased query gives the same result as the query itself |
| Workspace.BeginSend | components/Dashboard.tsx:236-249 | a blank prompt is ignored. Otherwise the untrimmed prompt is appended as one user message, the draft is cleared, loading is set, editing stops and the preview opens; every other field (document, history, search, title editor, menu, other pane flags) is unchanged |
| Workspace.SettleSend | components/Dashboard.tsx:251-274 | loading ends either way. Success sets the document, appends one assistant message and prepends one entry titled after the prompt with preview "Just now". A rejection appends one error message and leaves the document and history alone. No other field changes |
| Workspace.NoSingleFlight | components/Dashboard.tsx:307-311 | an enabled Send button always starts a request, and the Enter key starts one even while a request is loading |
| Workspace.SendResolved | components/Dashboard.tsx:236-275 | when a send of a non-blank prompt resolves, the transcript gains exactly the user message and then the notice, the document becomes the resolved text, exactly one entry is prepended, and loading ends with the draft empty and the preview open |
| Workspace.SendAgainstService | components/Dashboard.tsx:236-275 | a whole send of a non-blank prompt appends exactly the user message and the notice, sets a non-empty document, prepends exactly one entry, and ends with loading off, the draft empty and the preview open |
| Workspace.BeginAutoCorrect | components/Dashboard.tsx:277-279 | an empty document is left alone; otherwise only `isRefining` is set and the document is sent off |
| Workspace.SettleAutoCorrect | components/Dashboard.tsx:280-287 | only the document changes, and only on success; `isRefining` ends false |
| Workspace.AutoCorrectAgainstService | components/Dashboard.tsx:277-288 | a whole auto-correct leaves the transcript, history and draft alone, ends with `isRefining` off and a non-empty document, and keeps the old text as a prefix when the key is missing |
| Workspace.ClearChat | components/Dashboard.tsx:352 | New Chat (and Clear Chat, line 532) empties the transcript and the document and keeps everything else, the history and the draft included |
| Workspace.ToggleEditing | components/Dashboard.tsx:604 | the Edit/Save button flips only the editing flag |
| Workspace.EditDocument | components/Dashboard.tsx:627 | typing while editing replaces only the document |
| Workspace.DeleteHistoryItem | components/Dashboard.tsx:187-190 | no entry with the id survives, and the live transcript and document are untouched |
| Workspace.StartEditingHistory | components/Dashboard.tsx:192-197 | the entry's id and title go into the editor, and its menu closes; nothing else changes |
| Workspace.SaveEditingHistory | components/Dashboard.tsx:199-205 | a blank title leaves the list unchanged; any other title is stored untrimmed on the entries with the id; the editor closes in both cases |
| Workspace.CancelEditingHistory | components/Dashboard.tsx:207-210 | cancelling only closes the editor |
| Workspace.ToggleMenu | components/Dashboard.tsx:212-215 | the entry's menu becomes open exactly when it was not the open one, and at most that menu is open |
| Workspace.FilteredHistory | components/Dashboard.tsx:228-231 | the sidebar shows exactly the matching entries of the history, in list order, and all of them for an empty query |
| Workspace.StepKeepsWidthInBounds | components/Dashboard.tsx:166-174 | no Dashboard intent moves the preview width out of (20, 80) |
| Workspace.Step | components/Dashboard.tsx:322-627 | one event of the panel: only layout events move the width, only the prompt box (the Templates button included, as typing its fixed text) and Send touch the draft, only sends and New Chat touch the transcript, and only settled sends, deletions and renames touch the history; typing sets the box typed into; Send is ignored for a blank draft and otherwise clears the draft, sets `loading` and appends the user's message; New Chat empties the transcript and the document; deleting removes the entry from the history |
| Workspace.StepRunsHandler | components/Dashboard.tsx:322-627 | every Dashboard intent runs the handler its control is wired to: layout events the pane rules, Send and Auto Correct their `Begin` steps, their settlements `SettleSend` and `SettleAutoCorrect`, and each remaining button its own handler |
| Workspace.RunKeepsWidthInBounds | components/Dashboard.tsx:59 | from any in-range width (the initial 45 among them), the width stays in (20, 80) whatever the user does |
| Identity.UsernameOrGuest | components/Login.tsx:50-54 | a blank username gives `Guest`; any other is passed on untrimmed; the identity is never empty |
| Identity.SubmitLogin | components/Login.tsx:48-55 | Login's submit yields `Guest` for a blank username and the untrimmed username otherwise |
| Identity.LoginIgnoresPassword | components/Login.tsx:48-55 | the password never changes the identity |
| Identity.SubmitSignup | components/Signup.tsx:45-52 | Signup's submit yields `Guest` for a blank username and the untrimmed username otherwise |
| Identity.SignupIgnoresOtherFields | components/Signup.tsx:45-52 | email and both password fields never change the identity, so mismatching passwords do not block signing up |
| Identity.LoginAndSignupAgree | components/Signup.tsx:47-51 | both forms produce the same identity from the same username |
| Identity.GoogleIdentity | components/Login.tsx:57-71 | an identity exists exactly when sign-in and the userinfo fetch succeed. It is the name if non-empty, else the email if non-empty, else `Google User`, and never empty |
| App.ToggleLanguage | App.tsx:15-17 | the language always changes, and nothing else does |
| App.ToggleLanguageInvolutive | App.tsx:15-17 | toggling twice restores the state |
| App.HandleLogin | App.tsx:19-22 | login shows the Dashboard with the given identity and keeps the language |
| App.HandleLogout | App.tsx:24-27 | logout shows the login screen, clears the identity and keeps the language |
| App.ShowSignup | App.tsx:43 | the sign-up link shows the signup screen, keeping identity and language |
| App.ShowLogin | App.tsx:52 | the login link shows the login screen, keeping identity and language |
| App.Step | App.tsx:29-58 | an intent the current screen does not render has no effect; only the language switch changes the language, and it flips it changing nothing else; a login or sign-up shows the Dashboard with a non-empty user; a Google sign-in whose token and profile fetch succeed shows the Dashboard as the Google identity, and one that fails leaves the app unchanged; the links switch between the two forms keeping the user; logout shows the login screen with nobody signed in |
| App.StepKeepsConsistent | App.tsx:19-27 | each step keeps "the Dashboard is shown exactly when someone is signed in" |
| App.RunKeepsConsistent | App.tsx:11-27 | from any consistent state, every sequence of intents keeps that agreement |
| App.InitialConsistent | App.tsx:11-13 | the start-up state (login screen, empty username, English) is consistent |
| App.DashboardKeepsLanguage | App.tsx:31-37 | nothing on the Dashboard changes the language |
| App.SignupEqualsLogin | App.tsx:40-55 | signing up with a username gives the same state as logging in with it |
| App.LinksStayOnForms | App.tsx:40-56 | the two links never open the Dashboard and never change the identity |

## Left out

- Timers: the artificial delays before the fallback results (1.5 s and 1 s) are not modelled.
- Concurrency: React state batching, async interleaving, and a result landing after the user moved on are not modelled. Any order of `Begin` and `Settle` steps can still be replayed with `Workspace.Run`.
- Network: the Gemini client, the Google OAuth hook and the axios userinfo request are foreign calls. They appear only as outcome values.
- Response text: an absent `response.text` is modelled as the empty string. Both are falsy, so `||` treats them alike.
- Text.Lower: models `toLowerCase` for the letters A-Z only. Full Unicode case mapping is out of scope; Thai has no case.
- Text lengths: lengths and `slice(0, 20)` count Unicode characters, not UTF-16 code units. The two differ only for characters outside the Basic Multilingual Plane.
- Layout.Resize: uses exact real arithmetic instead of IEEE doubles. A zero-width container yields an infinite or NaN ratio in JavaScript; the model treats it as no proposal, which has the same effect.
- Id freshness: ids come from the clock and the code does not guarantee they are distinct. `History.Delete` removes every entry with the given id.
- Render conditions: `Workspace.Step` applies intents whether or not their control is rendered or enabled, so it over-approximates what a user can do. `App.Step` does model which screen offers which control.
- Templates: the button (components/Dashboard.tsx:217-219) is not a separate intent; its effect on the draft is `TypePrompt` of its fixed, language-dependent text, which is presentation and is not modelled.
- Word export: `handleDownloadWord` (Blob, anchor, DOM access) is browser plumbing.
- Browser plumbing: auto-scroll, the click-outside menu close and the window listener wiring are not modelled.
- Presentation: JSX markup, styling, translation tables other than the notices and fallbacks the logic returns, the avatar URL, and `DogLogo`.
- Form validation: the browser's `required` checks on the Signup fields are browser behaviour, outside the handler.
- Logging: `console` output is not modelled.
- System instruction: a request records which instruction it carries (the writer's or the editor's, in a language); `GeminiService.InstructionText` spells out the wording. No property of the wording itself is stated.

=== FILE: app.dfy ===
/** The application shell: which screen is shown, who is signed in and the
    interface language. */
module App {
  import opened Wrappers
  import opened Locale
  import Identity

  datatype View = LoginView | SignupView | DashboardView

  datatype AppState = AppState(currentView: View, username: string, lang: Language)

  /** The state on start-up: the login screen, nobody signed in, English. */
  const Initial: AppState := AppState(LoginView, "", En)

  /** `toggleLanguage`: English and Thai swap. */
  function ToggleLanguage(s: AppState): (r: AppState)
    ensures r.lang != s.lang
    ensures r.(lang := s.lang) == s
  {
    s.(lang := if s.lang == En then Th else En)
  }

  lemma ToggleLanguageInvolutive(s: AppState)
    ensures ToggleLanguage(ToggleLanguage(s)) == s
  {
  }

  /** `handleLogin`: the identity is stored and the Dashboard is shown. */
  function HandleLogin(s: AppState, user: string): (r: AppState)
    ensures r.currentView == DashboardView && r.username == user && r.lang == s.lang
  {
    s.(username := user, currentView := DashboardView)
  }

  /** `handleLogout`: back to the login screen with nobody signed in. */
  function HandleLogout(s: AppState): (r: AppState)
    ensures r.currentView == LoginView && r.username == "" && r.lang == s.lang
  {
    s.(currentView := LoginView, username := "")
  }

  /** The links between the two forms. */
  function ShowSignup(s: AppState): (r: AppState)
    ensures r.currentView == SignupView && r.username == s.username && r.lang == s.lang
  {
    s.(currentView := SignupView)
  }

  function ShowLogin(s: AppState): (r: AppState)
    ensures r.currentView == LoginView && r.username == s.username && r.lang == s.lang
  {
    s.(currentView := LoginView)
  }

  /** What the user can do; each is offered only on the screen that renders
      its control. */
  datatype Intent =
    | LanguageToggled
    | LoginSubmitted(form: Identity.LoginForm)
    | GoogleSignedIn(outcome: Identity.GoogleSignIn)
    | SignupSubmitted(signupForm: Identity.SignupForm)
    | SignupLinkClicked
    | LoginLinkClicked
    | LogoutClicked

  /** Whether the current screen offers the intent. The Dashboard offers only
      logging out: it receives `setLang` but never calls it. */
  predicate Offered(v: View, i: Intent) {
    match i
    case LanguageToggled => v != DashboardView
    case LoginSubmitted(_) => v == LoginView
    case GoogleSignedIn(_) => v == LoginView
    case SignupLinkClicked => v == LoginView
    case SignupSubmitted(_) => v == SignupView
    case LoginLinkClicked => v == SignupView
    case LogoutClicked => v == DashboardView
  }

  /** One user action; an intent the current screen does not offer has no effect. */
  function Step(s: AppState, i: Intent): (r: AppState)
    ensures !Offered(s.currentView, i) ==> r == s
    ensures !i.LanguageToggled? ==> r.lang == s.lang
    ensures Offered(s.currentView, i) && i.LanguageToggled? ==> r.lang != s.lang && r.(lang := s.lang) == s
    ensures Offered(s.currentView, i) && (i.LoginSubmitted? || i.SignupSubmitted?) ==>
      r.currentView == DashboardView && r.username != ""
    ensures Offered(s.currentView, i) && i.GoogleSignedIn? && Identity.GoogleIdentity(i.outcome).None? ==> r == s
    ensures Offered(s.currentView, i) && i.GoogleSignedIn? && Identity.GoogleIdentity(i.outcome).Some? ==>
      r.currentView == DashboardView && r.username == Identity.GoogleIdentity(i.outcome).value
    ensures Offered(s.currentView, i) && i.SignupLinkClicked? ==>
      r.currentView == SignupView && r.username == s.username
    ensures Offered(s.currentView, i) && i.LoginLinkClicked? ==>
      r.currentView == LoginView && r.username == s.username
    ensures Offered(s.currentView, i) && i.LogoutClicked? ==> r.currentView == LoginView && r.username == ""
  {
    if !Offered(s.currentView, i) then s
    else match i
      case LanguageToggled => ToggleLanguage(s)
      case LoginSubmitted(f) => HandleLogin(s, Identity.SubmitLogin(f))
      case GoogleSignedIn(g) =>
        (match Identity.GoogleIdentity(g) case Some(u) => HandleLogin(s, u) case None => s)
      case SignupSubmitted(f) => HandleLogin(s, Identity.SubmitSignup(f))
      case SignupLinkClicked => ShowSignup(s)
      case LoginLinkClicked => ShowLogin(s)
      case LogoutClicked => HandleLogout(s)
  }

  function Run(s: AppState, intents: seq<Intent>): AppState
    decreases |intents|
  {
    if intents == [] then s else Run(Step(s, intents[0]), intents[1..])
  }

  /** Someone is signed in exactly while the Dashboard is shown. */
  predicate Consistent(s: AppState) {
    s.currentView == DashboardView <==> s.username != ""
  }

  lemma StepKeepsConsistent(s: AppState, i: Intent)
    requires Consistent(s)
    ensures Consistent(Step(s, i))
  {
    match i
    case GoogleSignedIn(g) =>
      if Offered(s.currentView, i) && Identity.GoogleIdentity(g).Some? {
        assert Identity.GoogleIdentity(g).value != "";
      }
    case LoginSubmitted(f) =>
      assert Identity.SubmitLogin(f) == Identity.UsernameOrGuest(f.username);
    case SignupSubmitted(f) =>
      assert Identity.SubmitSignup(f) == Identity.UsernameOrGuest(f.username);
    case _ =>
  }

  /** From any consistent state (start-up among them, see
      `InitialConsistent`), whatever the user does, the shown screen and the
      signed-in identity keep agreeing. */
  lemma {:induction false} RunKeepsConsistent(s: AppState, intents: seq<Intent>)
    requires Consistent(s)
    ensures Consistent(Run(s, intents))
    decreases |intents|
  {
    if intents != [] {
      StepKeepsConsistent(s, intents[0]);
      RunKeepsConsistent(Step(s, intents[0]), intents[1..]);
    }
  }

  lemma InitialConsistent()
    ensures Consistent(Initial)
  {
  }

  /** The Dashboard cannot change the language. */
  lemma DashboardKeepsLanguage(s: AppState, i: Intent)
    requires s.currentView == DashboardView
    ensures Step(s, i).lang == s.lang
  {
  }

  /** Signing up with a username lands in the same state as logging in with it. */
  lemma SignupEqualsLogin(login: AppState, signup: AppState, username: string,
                          password: string, email: string, p1: string, p2: string)
    requires login.currentView == LoginView && signup.currentView == SignupView
    requires login.lang == signup.lang
    ensures Step(login, LoginSubmitted(Identity.LoginForm(username, password)))
         == Step(signup, SignupSubmitted(Identity.SignupForm(username, email, p1, p2)))
  {
    var u := Identity.SubmitLogin(Identity.LoginForm(username, password));
    Identity.LoginAndSignupAgree(username, password, email, p1, p2);
    LoginStep(login, Identity.LoginForm(username, password));
    SignupStep(signup, Identity.SignupForm(username, email, p1, p2));
  }

  /** On the login screen, submitting the form signs in its identity. */
  lemma LoginStep(s: AppState, f: Identity.LoginForm)
    requires s.currentView == LoginView
    ensures Step(s, LoginSubmitted(f)) == HandleLogin(s, Identity.SubmitLogin(f))
  {
  }

  /** On the signup screen, submitting the form signs in its identity. */
  lemma SignupStep(s: AppState, f: Identity.SignupForm)
    requires s.currentView == SignupView
    ensures Step(s, SignupSubmitted(f)) == HandleLogin(s, Identity.SubmitSignup(f))
  {
  }

  /** The two links only move between the login and the signup screens. */
  lemma LinksStayOnForms(s: AppState)
    ensures Step(s, SignupLinkClicked).currentView != DashboardView || s.currentView == DashboardView
    ensures Step(s, LoginLinkClicked).currentView != DashboardView || s.currentView == DashboardView
    ensures Step(s, SignupLinkClicked).username == s.username && Step(s, LoginLinkClicked).username == s.username
  {
  }
}

=== FILE: history.dfy ===
/** The Dashboard's history list (`historyDocs`): its entries and the list
    operations the sidebar offers. Entries are identified by their numeric
    `id`; the list does not enforce distinct ids. */
module History {
  import opened Text
  import opened Seqs

  datatype DocHistory = DocHistory(id: int, title: string, preview: string)

  /** The three entries the list starts with. */
  const Seeded: seq<DocHistory> := [
    DocHistory(1, "Project Proposal", "Outline for the Q3 marketing..."),
    DocHistory(2, "Email to Client", "Draft regarding the delays..."),
    DocHistory(3, "Poem about Code", "In the land of brackets...")
  ]

  /** The preview snippet of an entry created by a generation. */
  const JustNow: string := "Just now"
  const TitleLength: nat := 20
  const Ellipsis: string := "..."

  /** The title of a new entry: the first 20 characters of the prompt, with
      `...` appended exactly when the prompt is longer than that. */
  function EntryTitle(prompt: string): (r: string)
    ensures |prompt| <= TitleLength ==> r == prompt
    ensures |prompt| > TitleLength ==>
      |r| == TitleLength + |Ellipsis| && r[..TitleLength] == prompt[..TitleLength] && r[TitleLength..] == Ellipsis
  {
    Prefix(prompt, TitleLength) + (if |prompt| > TitleLength then Ellipsis else "")
  }

  /** A title is never longer than 23 characters and always starts with the
      prompt's first characters. */
  lemma EntryTitleShape(prompt: string)
    ensures |EntryTitle(prompt)| <= TitleLength + |Ellipsis|
    ensures StartsWith(EntryTitle(prompt), Prefix(prompt, TitleLength))
  {
  }

  lemma SeaPoemTitle()
    ensures EntryTitle("Write a poem about the sea") == "Write a poem about t..."
  {
  }

  /** The entry a successful generation puts at the head of the list. */
  function NewEntry(id: int, prompt: string): DocHistory {
    DocHistory(id, EntryTitle(prompt), JustNow)
  }

  /** Keeps the entries whose id differs from `id`. */
  function OtherThan(id: int): DocHistory -> bool {
    (d: DocHistory) => d.id != id
  }

  /** `deleteHistoryItem`: `filter(item => item.id !== id)`. */
  function Delete(h: seq<DocHistory>, id: int): (r: seq<DocHistory>)
    ensures forall i :: 0 <= i < |r| ==> r[i].id != id && r[i] in h
    ensures forall i :: 0 <= i < |h| && h[i].id != id ==> h[i] in r
    ensures IsSubsequence(r, h)
  {
    FilterIsSubsequence(h, OtherThan(id));
    Filter(h, OtherThan(id))
  }

  /** Deleting twice is the same as deleting once, and an id absent from the
      list leaves it unchanged. */
  lemma DeleteIdempotent(h: seq<DocHistory>, id: int)
    ensures Delete(Delete(h, id), id) == Delete(h, id)
    ensures (forall i :: 0 <= i < |h| ==> h[i].id != id) ==> Delete(h, id) == h
  {
    FilterIdempotent(h, OtherThan(id));
    if forall i :: 0 <= i < |h| ==> h[i].id != id {
      FilterKeepsAll(h, OtherThan(id));
    }
  }

  /** Deleting from a list with a new entry in front deletes that entry too
      when the ids match, and keeps it otherwise. */
  lemma DeleteFront(e: DocHistory, h: seq<DocHistory>, id: int)
    ensures Delete([e] + h, id) == (if e.id == id then [] else [e]) + Delete(h, id)
  {
    assert ([e] + h)[1..] == h;
  }

  /** The entries with id `id` get title `title`; all others stay as they are. */
  function Rename(h: seq<DocHistory>, id: int, title: string): (r: seq<DocHistory>)
    ensures |r| == |h|
    ensures forall i :: 0 <= i < |h| ==>
      r[i].id == h[i].id && r[i].preview == h[i].preview
      && r[i].title == (if h[i].id == id then title else h[i].title)
    decreases |h|
  {
    if h == [] then []
    else [if h[0].id == id then h[0].(title := title) else h[0]] + Rename(h[1..], id, title)
  }

  /** Renaming with the same title again changes nothing more. */
  lemma {:induction false} RenameIdempotent(h: seq<DocHistory>, id: int, title: string)
    ensures Rename(Rename(h, id, title), id, title) == Rename(h, id, title)
  {
    var r := Rename(h, id, title);
    var rr := Rename(r, id, title);
    assert forall i :: 0 <= i < |h| ==> rr[i] == r[i];
  }

  /** The search predicate: the lower-cased title or the lower-cased preview
      contains the lower-cased query. */
  predicate Matches(d: DocHistory, query: string) {
    Includes(Lower(d.title), Lower(query)) || Includes(Lower(d.preview), Lower(query))
  }

  function MatchesQuery(query: string): DocHistory -> bool {
    (d: DocHistory) => Matches(d, query)
  }

  /** `filteredHistory`: the entries matching the search query, in list order. */
  function Search(h: seq<DocHistory>, query: string): (r: seq<DocHistory>)
    ensures IsSubsequence(r, h)
    ensures forall i :: 0 <= i < |r| ==> r[i] in h && Matches(r[i], query)
    ensures forall i :: 0 <= i < |h| && Matches(h[i], query) ==> h[i] in r
  {
    FilterIsSubsequence(h, MatchesQuery(query));
    Filter(h, MatchesQuery(query))
  }

  /** An entry matches exactly when the query occurs, ignoring case, in its
      title or in its preview. */
  lemma MatchesIffOccurs(d: DocHistory, query: string)
    ensures Matches(d, query) <==> Contains(Lower(d.title), Lower(query)) || Contains(Lower(d.preview), Lower(query))
  {
    IncludesIffContains(Lower(d.title), Lower(query));
    IncludesIffContains(Lower(d.preview), Lower(query));
  }

  /** The empty query keeps every entry. */
  lemma SearchEmptyKeepsAll(h: seq<DocHistory>)
    ensures Search(h, "") == h
  {
    forall i | 0 <= i < |h|
      ensures MatchesQuery("")(h[i])
    {
      EmptyNeedleEverywhere(Lower(h[i].title));
    }
    FilterKeepsAll(h, MatchesQuery(""));
  }

  /** Queries that differ only in the case of their letters select the same
      entries; in particular `Search(h, q) == Search(h, Lower(q))`. */
  lemma SearchIgnoresCase(h: seq<DocHistory>, q1: string, q2: string)
    requires Lower(q1) == Lower(q2)
    ensures Search(h, q1) == Search(h, q2)
  {
    FilterCongruent(h, MatchesQuery(q1), MatchesQuery(q2));
  }

  lemma SearchLowered(h: seq<DocHistory>, q: string)
    ensures Search(h, Lower(q)) == Search(h, q)
  {
    LowerIdempotent(q);
    SearchIgnoresCase(h, Lower(q), q);
  }
}

=== FILE: identity.dfy ===
/** How the Login and Signup forms turn what the user entered into the
    identity handed to the application. */
module Identity {
  import opened Wrappers
  import opened Text

  const GuestName: string := "Guest"
  const GoogleFallbackName: string := "Google User"

  /** The username-or-Guest rule shared by both forms: a username that trims
      to nothing becomes `Guest`; any other is passed on untrimmed. */
  function UsernameOrGuest(username: string): (r: string)
    ensures Blank(username) ==> r == GuestName
    ensures !Blank(username) ==> r == username
    ensures r != ""
  {
    TrimEmptyIffBlank(username);
    if Trim(username) != "" then username else GuestName
  }

  datatype LoginForm = LoginForm(username: string, password: string)

  /** Login's `handleSubmit`: the identity passed to `onLogin`. */
  function SubmitLogin(f: LoginForm): (identity: string)
    ensures Blank(f.username) ==> identity == GuestName
    ensures !Blank(f.username) ==> identity == f.username
  {
    UsernameOrGuest(f.username)
  }

  /** The password never influences the identity. */
  lemma LoginIgnoresPassword(username: string, p1: string, p2: string)
    ensures SubmitLogin(LoginForm(username, p1)) == SubmitLogin(LoginForm(username, p2))
  {
  }

  datatype SignupForm = SignupForm(username: string, email: string, password: string, confirmPassword: string)

  /** Signup's `handleSubmit`: the identity passed to `onSignup`, once per
      submit. Nothing compares the two passwords. */
  function SubmitSignup(f: SignupForm): (identity: string)
    ensures Blank(f.username) ==> identity == GuestName
    ensures !Blank(f.username) ==> identity == f.username
  {
    UsernameOrGuest(f.username)
  }

  /** Email and the two password fields never influence the identity; in
      particular mismatching passwords do not block signing up. */
  lemma SignupIgnoresOtherFields(f: SignupForm, g: SignupForm)
    requires f.username == g.username
    ensures SubmitSignup(f) == SubmitSignup(g)
  {
  }

  /** Both forms produce the same identity from the same username. */
  lemma LoginAndSignupAgree(username: string, password: string, email: string, p1: string, p2: string)
    ensures SubmitLogin(LoginForm(username, password)) == SubmitSignup(SignupForm(username, email, p1, p2))
  {
  }

  /** The profile returned by the userinfo endpoint; absent fields are `None`. */
  datatype UserInfo = UserInfo(name: Option<string>, email: Option<string>)

  /** What the Google sign-in produces: a token whose userinfo fetch then
      resolves or rejects, or an error from the sign-in itself. */
  datatype GoogleSignIn = TokenGranted(userInfo: Settled<UserInfo>) | SignInFailed

  /** A field is usable when present and non-empty (truthy in JavaScript). */
  predicate Present(field: Option<string>) {
    field.Some? && field.value != ""
  }

  /** The Google login handler: `name || email || 'Google User'` when the
      userinfo fetch succeeds; no identity (no `onLogin` call) otherwise. */
  function GoogleIdentity(g: GoogleSignIn): (r: Option<string>)
    ensures r.Some? <==> g.TokenGranted? && g.userInfo.Fulfilled?
    ensures r.Some? ==> r.value != ""
    ensures r.Some? && Present(g.userInfo.value.name) ==> r.value == g.userInfo.value.name.value
    ensures r.Some? && !Present(g.userInfo.value.name) && Present(g.userInfo.value.email) ==>
              r.value == g.userInfo.value.email.value
    ensures r.Some? && !Present(g.userInfo.value.name) && !Present(g.userInfo.value.email) ==>
              r.value == GoogleFallbackName
  {
    match g
    case SignInFailed => None
    case TokenGranted(Rejected(_)) => None
    case TokenGranted(Fulfilled(info)) =>
      Some(if Present(info.name) then info.name.value
           else if Present(info.email) then info.email.value
           else GoogleFallbackName)
  }
}

=== FILE: layout.dfy ===
/** The Dashboard's pane layout: which panes are open, the preview pane's
    width as a percentage of the container, and the drag-to-resize gesture. */
module Layout {
  import opened Wrappers

  /** The container's bounding box, as far as resizing uses it. */
  datatype Rect = Rect(right: real, width: real)

  datatype Panes = Panes(
    isSidebarOpen: bool,
    isPreviewOpen: bool,
    previewWidth: real,   // percent of the container
    isResizing: bool,
    isMobile: bool,
    isFullPreview: bool)

  const MinWidth: real := 20.0
  const MaxWidth: real := 80.0
  const MobileBreakpoint: int := 768

  /** The layout when the Dashboard mounts. */
  const Initial: Panes := Panes(true, true, 45.0, false, false, false)

  /** The preview width lies strictly inside the accepted interval. */
  predicate WidthInBounds(w: real) {
    MinWidth < w < MaxWidth
  }

  /** `checkMobile`: a viewport narrower than 768 pixels counts as mobile. */
  function CheckMobile(p: Panes, innerWidth: int): (r: Panes)
    ensures r.isMobile <==> innerWidth < MobileBreakpoint
    ensures r.(isMobile := p.isMobile) == p
  {
    p.(isMobile := innerWidth < MobileBreakpoint)
  }

  /** `startResizing`: pressing on the drag handle begins a gesture. */
  function StartResizing(p: Panes): (r: Panes)
    ensures r.isResizing && r.(isResizing := p.isResizing) == p
  {
    p.(isResizing := true)
  }

  /** `stopResizing`: releasing the pointer anywhere ends the gesture. */
  function StopResizing(p: Panes): (r: Panes)
    ensures !r.isResizing && r.(isResizing := p.isResizing) == p
  {
    p.(isResizing := false)
  }

  /** The width, in percent, the pointer position asks for:
      `(right - x) / width * 100`. A zero-width container makes the
      JavaScript quotient infinite or NaN, which no bound accepts; it is
      modelled as no proposal at all. */
  function ProposedWidth(rect: Rect, x: real): Option<real> {
    if rect.width == 0.0 then None else Some((rect.right - x) / rect.width * 100.0)
  }

  /** `resize` on a mouse move: while a gesture is active and the container is
      mounted, the proposed width is adopted when it lies strictly between 20
      and 80; otherwise the previous width is kept (no clamping). */
  function Resize(p: Panes, container: Option<Rect>, x: real): (r: Panes)
    ensures r.(previewWidth := p.previewWidth) == p
    ensures r.previewWidth != p.previewWidth ==> p.isResizing && WidthInBounds(r.previewWidth)
    ensures p.isResizing && container.Some? && container.value.width != 0.0
            && WidthInBounds((container.value.right - x) / container.value.width * 100.0)
            ==> r.previewWidth == (container.value.right - x) / container.value.width * 100.0
    ensures !p.isResizing || container.None? ==> r == p
    ensures p.isResizing && container.Some?
            && (ProposedWidth(container.value, x).None? || !WidthInBounds(ProposedWidth(container.value, x).value))
            ==> r == p
    ensures r.previewWidth == p.previewWidth
            || (p.isResizing && container.Some? && ProposedWidth(container.value, x) == Some(r.previewWidth))
  {
    if p.isResizing && container.Some? then
      match ProposedWidth(container.value, x)
      case Some(w) => if w > MinWidth && w < MaxWidth then p.(previewWidth := w) else p
      case None => p
    else p
  }

  /** The sidebar's open and close buttons. */
  function SetSidebar(p: Panes, open: bool): (r: Panes)
    ensures r.isSidebarOpen == open && r.(isSidebarOpen := p.isSidebarOpen) == p
  {
    p.(isSidebarOpen := open)
  }

  /** The header's Open Preview button. */
  function OpenPreview(p: Panes): (r: Panes)
    ensures r.isPreviewOpen && r.(isPreviewOpen := p.isPreviewOpen) == p
  {
    p.(isPreviewOpen := true)
  }

  /** Close Preview also leaves full-screen mode. */
  function ClosePreview(p: Panes): (r: Panes)
    ensures !r.isPreviewOpen && !r.isFullPreview
    ensures r.(isPreviewOpen := p.isPreviewOpen, isFullPreview := p.isFullPreview) == p
  {
    p.(isPreviewOpen := false, isFullPreview := false)
  }

  /** The Full Screen / Exit Full Screen button. */
  function ToggleFullPreview(p: Panes): (r: Panes)
    ensures r.isFullPreview != p.isFullPreview && r.(isFullPreview := p.isFullPreview) == p
  {
    p.(isFullPreview := !p.isFullPreview)
  }

  /** Tapping the mobile backdrop closes both the sidebar and the preview. */
  function TapBackdrop(p: Panes): (r: Panes)
    ensures !r.isSidebarOpen && !r.isPreviewOpen
    ensures r.(isSidebarOpen := p.isSidebarOpen, isPreviewOpen := p.isPreviewOpen) == p
  {
    p.(isSidebarOpen := false, isPreviewOpen := false)
  }

  /** The preview pane's explicit width: only an open, non-fullscreen preview
      on a wide viewport gets `previewWidth` percent; otherwise CSS decides. */
  function RenderedWidth(p: Panes): (r: Option<real>)
    ensures r.Some? <==> p.isPreviewOpen && !p.isFullPreview && !p.isMobile
    ensures r.Some? ==> r.value == p.previewWidth
  {
    if p.isPreviewOpen && !p.isFullPreview && !p.isMobile then Some(p.previewWidth) else None
  }

  /** The layout events the Dashboard reacts to. */
  datatype Event =
    | ViewportResized(innerWidth: int)
    | HandlePressed
    | PointerMoved(container: Option<Rect>, x: real)
    | PointerReleased
    | SidebarOpened
    | SidebarClosed
    | PreviewOpened
    | PreviewClosed
    | FullPreviewToggled
    | BackdropTapped

  function Step(p: Panes, e: Event): Panes {
    match e
    case ViewportResized(w) => CheckMobile(p, w)
    case HandlePressed => StartResizing(p)
    case PointerMoved(c, x) => Resize(p, c, x)
    case PointerReleased => StopResizing(p)
    case SidebarOpened => SetSidebar(p, true)
    case SidebarClosed => SetSidebar(p, false)
    case PreviewOpened => OpenPreview(p)
    case PreviewClosed => ClosePreview(p)
    case FullPreviewToggled => ToggleFullPreview(p)
    case BackdropTapped => TapBackdrop(p)
  }

  /** Each event runs the handler of the control or listener that raises it. */
  lemma StepRunsHandler(p: Panes, e: Event)
    ensures e.ViewportResized? ==> Step(p, e) == CheckMobile(p, e.innerWidth)
    ensures e.HandlePressed? ==> Step(p, e) == StartResizing(p)
    ensures e.PointerMoved? ==> Step(p, e) == Resize(p, e.container, e.x)
    ensures e.PointerReleased? ==> Step(p, e) == StopResizing(p)
    ensures e.SidebarOpened? ==> Step(p, e) == SetSidebar(p, true)
    ensures e.SidebarClosed? ==> Step(p, e) == SetSidebar(p, false)
    ensures e.PreviewOpened? ==> Step(p, e) == OpenPreview(p)
    ensures e.PreviewClosed? ==> Step(p, e) == ClosePreview(p)
    ensures e.FullPreviewToggled? ==> Step(p, e) == ToggleFullPreview(p)
    ensures e.BackdropTapped? ==> Step(p, e) == TapBackdrop(p)
  {
  }

  function Run(p: Panes, es: seq<Event>): Panes
    decreases |es|
  {
    if es == [] then p else Run(Step(p, es[0]), es[1..])
  }

  /** From any width strictly between 20 and 80 percent (the initial 45
      among them), no sequence of events moves the preview width out of that
      interval. */
  lemma {:induction false} RunKeepsWidthInBounds(p: Panes, es: seq<Event>)
    requires WidthInBounds(p.previewWidth)
    ensures WidthInBounds(Run(p, es).previewWidth)
    decreases |es|
  {
    if es != [] {
      RunKeepsWidthInBounds(Step(p, es[0]), es[1..]);
    }
  }

  lemma InitialWidthInBounds()
    ensures WidthInBounds(Initial.previewWidth)
  {
  }

  /** Without an active gesture no event other than pressing the handle
      changes the width: pointer moves alone never resize. */
  lemma {:induction false} WidthFrozenWithoutGesture(p: Panes, es: seq<Event>)
    requires !p.isResizing
    requires forall i :: 0 <= i < |es| ==> es[i] != HandlePressed
    ensures Run(p, es).previewWidth == p.previewWidth
    ensures !Run(p, es).isResizing
    decreases |es|
  {
    if es != [] {
      WidthFrozenWithoutGesture(Step(p, es[0]), es[1..]);
    }
  }

  /** Scenario: a 1000-pixel container whose right edge is at 1000, with the
      pointer at 300, asks for 70 percent, which is adopted. */
  lemma DragToSeventyPercent(p: Panes)
    requires p.isResizing
    ensures Resize(p, Some(Rect(1000.0, 1000.0)), 300.0).previewWidth == 70.0
  {
  }

  /** Scenario: dragging to the container's left edge asks for 100 percent,
      which is refused outright: the width stays where it was rather than
      stopping at the 80 percent bound. */
  lemma DragPastBoundKeepsWidth(p: Panes)
    requires p.isResizing
    ensures Resize(p, Some(Rect(1000.0, 1000.0)), 0.0) == p
  {
  }
}

=== FILE: locale.dfy ===
/** The two interface languages. */
module Locale {

  /** `Language` in the application: `'en' | 'th'`. */
  datatype Language = En | Th
}

=== FILE: seqs.dfy ===
/** `Array.prototype.filter` and the order it preserves. */
module Seqs {

  /** `s.filter(keep)`: the elements of `s` that satisfy `keep`, in their
      original order. */
  function Filter<T(==)>(s: seq<T>, keep: T -> bool): (r: seq<T>)
    ensures |r| <= |s|
    ensures forall i :: 0 <= i < |r| ==> r[i] in s && keep(r[i])
    ensures forall i :: 0 <= i < |s| && keep(s[i]) ==> s[i] in r
    decreases |s|
  {
    if s == [] then []
    else if keep(s[0]) then [s[0]] + Filter(s[1..], keep)
    else Filter(s[1..], keep)
  }

  /** `a` is `b` with some elements removed and the rest kept in order. */
  predicate IsSubsequence<T(==)>(a: seq<T>, b: seq<T>)
    decreases |b|
  {
    if a == [] then true
    else if b == [] then false
    else (a[0] == b[0] && IsSubsequence(a[1..], b[1..])) || IsSubsequence(a, b[1..])
  }

  /** Filtering keeps the surviving elements in their original relative order. */
  lemma {:induction false} FilterIsSubsequence<T>(s: seq<T>, keep: T -> bool)
    ensures IsSubsequence(Filter(s, keep), s)
    decreases |s|
  {
    if s != [] {
      FilterIsSubsequence(s[1..], keep);
      var r := Filter(s, keep);
      if keep(s[0]) {
        assert r[0] == s[0] && r[1..] == Filter(s[1..], keep);
      } else if r != [] {
        assert r == Filter(s[1..], keep);
      }
    }
  }

  /** Filtering distributes over concatenation: the result for a whole list
      is the result for its front followed by the result for its back. */
  lemma {:induction false} FilterConcat<T>(a: seq<T>, b: seq<T>, keep: T -> bool)
    ensures Filter(a + b, keep) == Filter(a, keep) + Filter(b, keep)
    decreases |a|
  {
    if a == [] {
      assert a + b == b;
    } else {
      assert (a + b)[1..] == a[1..] + b;
      FilterConcat(a[1..], b, keep);
    }
  }

  /** A predicate every element satisfies keeps the whole list unchanged. */
  lemma {:induction false} FilterKeepsAll<T>(s: seq<T>, keep: T -> bool)
    requires forall i :: 0 <= i < |s| ==> keep(s[i])
    ensures Filter(s, keep) == s
    decreases |s|
  {
    if s != [] {
      FilterKeepsAll(s[1..], keep);
    }
  }

  /** Filtering is idempotent: what survives once survives again. */
  lemma {:induction false} FilterIdempotent<T>(s: seq<T>, keep: T -> bool)
    ensures Filter(Filter(s, keep), keep) == Filter(s, keep)
  {
    var r := Filter(s, keep);
    FilterKeepsAll(r, keep);
  }

  /** Two predicates that agree on every element of `s` filter it the same way. */
  lemma {:induction false} FilterCongruent<T>(s: seq<T>, p: T -> bool, q: T -> bool)
    requires forall i :: 0 <= i < |s| ==> p(s[i]) == q(s[i])
    ensures Filter(s, p) == Filter(s, q)
    decreases |s|
  {
    if s != [] {
      FilterCongruent(s[1..], p, q);
    }
  }
}

=== FILE: service.dfy ===
/** The generation service: a facade over an external text-generation
    provider that falls back to locally built text whenever the provider
    cannot be used. Both entry points are `async` functions; their promise is
    modelled as a `Settled` value, and the provider call as a total function
    from the request to its outcome. */
module GeminiService {
  import opened Wrappers
  import opened Locale
  import opened Text

  /** What the provider call yields: a response (whose `text` is `""` when
      the response carries no text) or a thrown error (network failure,
      rejected request, malformed reply). */
  datatype ProviderOutcome = Replied(text: string) | Failed

  /** A client bound to an API key. */
  datatype Client = Client(apiKey: string)

  /** The system instruction a request carries: the writer's (for
      generation) or the editor's (for refining), in a language.
      `InstructionText` spells each one out. */
  datatype Instruction = WriterInstruction(lang: Language) | EditorInstruction(lang: Language)

  /** The arguments of one `generateContent` call. */
  datatype Request = Request(model: string, contents: string, systemInstruction: Instruction, temperature: real)

  /** The external capability: what the provider answers to a request. */
  type Provider = Request -> ProviderOutcome

  const ModelName: string := "gemini-2.5-flash"
  const MissingKey: string := "API Key is missing"
  const ProviderError: string := "provider call failed"

  /** `getAIClient`: an absent or empty key throws; any other key yields a client. */
  function GetAIClient(apiKey: Option<string>): (r: Settled<Client>)
    ensures r.Fulfilled? <==> apiKey.Some? && apiKey.value != ""
    ensures r.Fulfilled? ==> r.value.apiKey == apiKey.value
    ensures r.Rejected? ==> r.reason == MissingKey
  {
    match apiKey
    case Some(k) => if k != "" then Fulfilled(Client(k)) else Rejected(MissingKey)
    case None => Rejected(MissingKey)
  }

  const PromptOpening: string := "Write a "
  const PromptMiddle: string := " about the following topic: \""
  const PromptClosing: string := "\"."

  /** The number of characters the generation prompt adds around `kind` and `topic`. */
  const PromptFrame: nat := |PromptOpening| + |PromptMiddle| + |PromptClosing|

  /** Reads the topic back out of a generation prompt built for `kind`. */
  function TopicOf(kind: string, prompt: string): string {
    var start := |PromptOpening| + |kind| + |PromptMiddle|;
    if start + |PromptClosing| <= |prompt| then prompt[start..|prompt| - |PromptClosing|] else ""
  }

  /** The user-visible prompt of a generation request: it opens by naming the
      kind, closes the quotation, and carries the topic verbatim in between,
      so reading it back gives the topic. */
  function GenerationPrompt(kind: string, topic: string): (r: string)
    ensures StartsWith(r, PromptOpening + kind + PromptMiddle)
    ensures |r| == PromptFrame + |kind| + |topic|
    ensures r[|r| - |PromptClosing|..] == PromptClosing
    ensures TopicOf(kind, r) == topic
  {
    var head := PromptOpening + kind + PromptMiddle;
    var r := head + topic + PromptClosing;
    assert r[..|head|] == head;
    assert r[|head|..|r| - |PromptClosing|] == topic;
    r
  }

  /** Different topics give different prompts: the topic is passed verbatim. */
  lemma GenerationPromptInjective(kind: string, t1: string, t2: string)
    ensures GenerationPrompt(kind, t1) == GenerationPrompt(kind, t2) <==> t1 == t2
  {
  }

  /** The instruction telling the provider which language to write in. */
  function GenerateLanguageInstruction(lang: Language): string {
    match lang
    case Th => ThReplyInstruction
    case En => EnReplyInstruction
  }

  const ThReplyInstruction: string := "You must reply strictly in Thai language. Use formal and professional Thai for the document content."
  const EnReplyInstruction: string := "You must reply in English."
  const PersonaIntro: string := "You are \"ABDUL DOCGEN\", a sophisticated AI writing assistant. \n    Your goal is to generate high-quality, professional, and engaging content. \n    Maintain a helpful and creative tone. \n    "
  const FormatRules: string := "\n    Format your response using Markdown. \n    If the type is 'email', format it as a proper email structure. \n    If 'article', use headings."

  /** The wording of a system instruction. The writer's is the persona, the
      language instruction, then the formatting rules; the editor's is the
      editing brief followed by the language instruction. */
  function InstructionText(i: Instruction): string {
    match i
    case WriterInstruction(lang) => PersonaIntro + GenerateLanguageInstruction(lang) + FormatRules
    case EditorInstruction(lang) => EditorIntro + RefineLanguageInstruction(lang)
  }

  /** The request `generateDocument` sends. */
  function GenerateRequest(topic: string, kind: string, lang: Language): (r: Request)
    ensures r.model == ModelName && r.temperature == 0.7 && r.systemInstruction == WriterInstruction(lang)
    ensures StartsWith(r.contents, PromptOpening + kind + PromptMiddle)
    ensures |r.contents| == PromptFrame + |kind| + |topic|
    ensures r.contents[|r.contents| - |PromptClosing|..] == PromptClosing
    ensures TopicOf(kind, r.contents) == topic
  {
    Request(ModelName, GenerationPrompt(kind, topic), WriterInstruction(lang), 0.7)
  }

  /** What `generateDocument` returns when the provider answers without text. */
  function NoTextDefault(lang: Language): (r: string)
    ensures r != ""
  {
    match lang
    case Th => ThNoText
    case En => EnNoText
  }

  const ThNoText: string := "ไม่สามารถสร้างข้อความได้"
  const EnNoText: string := "No text generated."

  /** The heading that opens the local placeholder document. */
  function MockTitle(lang: Language): string {
    match lang
    case Th => ThMockTitle
    case En => EnMockTitle
  }

  const ThMockTitle: string := "# เอกสารตัวอย่าง: "
  const EnMockTitle: string := "# Mock Document: "

  /** The placeholder text between the heading's topic and the quoted topic. */
  function MockIntro(lang: Language): string {
    match lang
    case Th => ThMockIntro
    case En => EnMockIntro
  }

  /** The placeholder text after the quoted topic. */
  function MockClosing(lang: Language): string {
    match lang
    case Th => ThMockClosing
    case En => EnMockClosing
  }

  const EnMockIntro: string := "\n\nThis is a sample document generated in **Mock Mode** because the API Key is missing or there was a connection error.\n\n## Main Section\n\nThis content is simulated to demonstrate the layout and formatting. Normally, the AI would generate detailed content regarding "
  const EnMockClosing: string := ".\n\n- Item 1\n- Item 2\n- Item 3\n\nIn conclusion, the UI and interaction flow are fully functional."
  const ThMockIntro: string := "\n\nนี่คือตัวอย่างเอกสารที่สร้างขึ้นโดยระบบจำลอง (Mock Mode) เนื่องจากไม่พบ API Key หรือเกิดข้อผิดพลาดในการเชื่อมต่อ\n\n## หัวข้อหลัก\n\nเนื้อหาในส่วนนี้จะเป็นการจำลองข้อความ เพื่อให้เห็นรูปแบบการจัดวางเอกสาร โดยปกติแล้ว AI จะสร้างเนื้อหาที่เกี่ยวข้องกับ "
  const ThMockClosing: string := " อย่างละเอียด\n\n- รายการที่ 1\n- รายการที่ 2\n- รายการที่ 3\n\nสรุปแล้ว ระบบสามารถทำงานได้ตามปกติในส่วนของ UI และการโต้ตอบ"

  /** The topic between double quotes, as the placeholder body cites it. */
  function Quoted(topic: string): string {
    "\"" + topic + "\""
  }

  /** A document laid out as heading, topic, introduction, quoted topic and
      closing opens with the heading and the topic, and after them still
      quotes the topic. */
  lemma FramedDocumentNamesTopic(title: string, intro: string, closing: string, topic: string)
    ensures StartsWith((title + topic) + (intro + Quoted(topic) + closing), title + topic)
    ensures Includes(((title + topic) + (intro + Quoted(topic) + closing))[|title| + |topic|..], Quoted(topic))
  {
    var head := title + topic;
    var body := intro + Quoted(topic) + closing;
    assert (head + body)[..|head|] == head;
    assert (head + body)[|head|..] == body;
    ContainsMiddle(intro, Quoted(topic), closing);
  }

  /** The placeholder document built locally when the provider cannot be
      used: it opens with the language's heading followed by the topic, and
      its body quotes the topic again. */
  function MockDocument(topic: string, lang: Language): (r: string)
    ensures StartsWith(r, MockTitle(lang) + topic)
    ensures Includes(r[|MockTitle(lang)| + |topic|..], Quoted(topic))
  {
    FramedDocumentNamesTopic(MockTitle(lang), MockIntro(lang), MockClosing(lang), topic);
    (MockTitle(lang) + topic) + (MockIntro(lang) + Quoted(topic) + MockClosing(lang))
  }

  /** The body of `generateDocument`'s `try` block: it rejects when no client
      can be built or the provider call throws, and otherwise resolves with
      the response text, or the language's default when that text is empty. */
  function TryGenerate(topic: string, kind: string, lang: Language, apiKey: Option<string>, provider: Provider): (r: Settled<string>)
    ensures r.Rejected? <==> GetAIClient(apiKey).Rejected? || provider(GenerateRequest(topic, kind, lang)).Failed?
  {
    match GetAIClient(apiKey)
    case Rejected(e) => Rejected(e)
    case Fulfilled(_) =>
      match provider(GenerateRequest(topic, kind, lang))
      case Failed => Rejected(ProviderError)
      case Replied(text) => Fulfilled(if text != "" then text else NoTextDefault(lang))
  }

  /** `generateDocument`: every failure of the `try` block is caught and
      replaced by the placeholder document, so the promise always resolves,
      and always with non-empty text. */
  function GenerateDocument(topic: string, kind: string, lang: Language, apiKey: Option<string>, provider: Provider): (r: Settled<string>)
    ensures r.Fulfilled? && r.value != ""
    ensures
      var reply := provider(GenerateRequest(topic, kind, lang));
      && (apiKey.Some? && apiKey.value != "" && reply.Replied? && reply.text != "" ==> r.value == reply.text)
      && (apiKey.Some? && apiKey.value != "" && reply == Replied("") ==> r.value == NoTextDefault(lang))
      && (apiKey.None? || apiKey == Some("") || reply.Failed? ==> r.value == MockDocument(topic, lang))
  {
    match TryGenerate(topic, kind, lang, apiKey, provider)
    case Fulfilled(text) => Fulfilled(text)
    case Rejected(_) => Fulfilled(MockDocument(topic, lang))
  }

  /** The instruction telling the editor which language to keep. */
  function RefineLanguageInstruction(lang: Language): string {
    match lang
    case Th => ThEditInstruction
    case En => EnEditInstruction
  }

  const ThEditInstruction: string := "Review and edit the following content in Thai. Fix grammar, spelling, and improve the professional tone. Keep the output in Thai."
  const EnEditInstruction: string := "Review and edit the following content in English. Fix grammar, spelling, and improve the professional tone."
  const EditorIntro: string := "You are an expert editor. Your job is to proofread and polish the document. Do not change the core meaning. Return the result in Markdown. "
  const RefinePreamble: string := "Please edit and refine the following text:\n\n"

  /** The request `refineDocument` sends: the content follows a fixed preamble. */
  function RefineRequest(content: string, lang: Language): (r: Request)
    ensures r.model == ModelName && r.temperature == 0.3 && r.systemInstruction == EditorInstruction(lang)
    ensures StartsWith(r.contents, RefinePreamble) && r.contents[|RefinePreamble|..] == content
  {
    Request(ModelName, RefinePreamble + content, EditorInstruction(lang), 0.3)
  }

  /** The note appended to the content when refining falls back locally. */
  function RefinedMarker(lang: Language): string {
    match lang
    case Th => ThRefinedMarker
    case En => EnRefinedMarker
  }

  const ThRefinedMarker: string := "\n\n(แก้ไขแล้ว - Mock)"
  const EnRefinedMarker: string := "\n\n(Refined - Mock)"

  /** The body of `refineDocument`'s `try` block: it rejects when no client
      can be built or the provider call throws, and otherwise resolves with
      the response text, or the unchanged content when that text is empty. */
  function TryRefine(content: string, lang: Language, apiKey: Option<string>, provider: Provider): (r: Settled<string>)
    ensures r.Rejected? <==> GetAIClient(apiKey).Rejected? || provider(RefineRequest(content, lang)).Failed?
  {
    match GetAIClient(apiKey)
    case Rejected(e) => Rejected(e)
    case Fulfilled(_) =>
      match provider(RefineRequest(content, lang))
      case Failed => Rejected(ProviderError)
      case Replied(text) => Fulfilled(if text != "" then text else content)
  }

  /** `refineDocument`: the promise always resolves. On a failure the content
      comes back with the language's marker appended, so it is never lost. */
  function RefineDocument(content: string, lang: Language, apiKey: Option<string>, provider: Provider): (r: Settled<string>)
    ensures r.Fulfilled?
    ensures content != "" ==> r.value != ""
    ensures
      var reply := provider(RefineRequest(content, lang));
      && (apiKey.Some? && apiKey.value != "" && reply.Replied? && reply.text != "" ==> r.value == reply.text)
      && (apiKey.Some? && apiKey.value != "" && reply == Replied("") ==> r.value == content)
      && (apiKey.None? || apiKey == Some("") || reply.Failed? ==>
            StartsWith(r.value, content) && r.value[|content|..] == RefinedMarker(lang))
  {
    match TryRefine(content, lang, apiKey, provider)
    case Fulfilled(text) => Fulfilled(text)
    case Rejected(_) => Fulfilled(content + RefinedMarker(lang))
  }

  /** Whatever the provider does, refining either adopts the provider's
      non-empty text or keeps the original content as a prefix of the result. */
  lemma RefineNeverDiscardsContent(content: string, lang: Language, apiKey: Option<string>, provider: Provider)
    ensures
      var r := RefineDocument(content, lang, apiKey, provider).value;
      StartsWith(r, content) || (r != "" && provider(RefineRequest(content, lang)) == Replied(r))
  {
  }
}

=== FILE: text.dfy ===
/** The ECMAScript string operations the application relies on:
    `String.prototype.trim`, `toLowerCase`, `includes` and `slice`. */
module Text {

  /** The code points `trim` strips: ECMAScript WhiteSpace and LineTerminator
      (tab, vertical tab, form feed, space, no-break space, byte order mark,
      the Unicode space separators, line feed, carriage return and the two
      Unicode line/paragraph separators). */
  predicate IsWhitespace(c: char) {
    var n := c as int;
    n == 0x09 || n == 0x0A || n == 0x0B || n == 0x0C || n == 0x0D || n == 0x20
    || n == 0xA0 || n == 0x1680 || (0x2000 <= n <= 0x200A)
    || n == 0x2028 || n == 0x2029 || n == 0x202F || n == 0x205F
    || n == 0x3000 || n == 0xFEFF
  }

  /** A string made of whitespace only (the empty string included). */
  ghost predicate Blank(s: string) {
    forall i :: 0 <= i < |s| ==> IsWhitespace(s[i])
  }

  /** Drops leading whitespace; the result is the longest suffix of `s` that
      does not start with whitespace. */
  function TrimStart(s: string): (r: string)
    ensures |r| <= |s|
    ensures |r| == |s| ==> r == s
    ensures |r| < |s| ==> forall i :: 0 <= i < |r| ==> r[i] == s[|s| - |r| + i]
    ensures r == [] || !IsWhitespace(r[0])
    ensures forall i :: 0 <= i < |s| - |r| ==> IsWhitespace(s[i])
    decreases |s|
  {
    if s != [] && IsWhitespace(s[0]) then TrimStart(s[1..]) else s
  }

  /** Drops trailing whitespace; the result is the longest prefix of `s` that
      does not end with whitespace. */
  function TrimEnd(s: string): (r: string)
    ensures |r| <= |s| && forall i :: 0 <= i < |r| ==> r[i] == s[i]
    ensures r == [] || !IsWhitespace(r[|r| - 1])
    ensures forall i :: |r| <= i < |s| ==> IsWhitespace(s[i])
    decreases |s|
  {
    if s != [] && IsWhitespace(s[|s| - 1]) then TrimEnd(s[..|s| - 1]) else s
  }

  /** `s.trim()`: whitespace is stripped from both ends, so the result
      neither starts nor ends with whitespace. */
  function Trim(s: string): (r: string)
    ensures |r| <= |s|
    ensures r == [] || (!IsWhitespace(r[0]) && !IsWhitespace(r[|r| - 1]))
  {
    StrippedEmptyIffBlank(s);
    TrimEnd(TrimStart(s))
  }

  /** Stripping both ends leaves nothing exactly when every character is
      whitespace. */
  lemma StrippedEmptyIffBlank(s: string)
    ensures TrimEnd(TrimStart(s)) == [] <==> Blank(s)
    ensures TrimEnd(TrimStart(s)) == [] || !IsWhitespace(TrimEnd(TrimStart(s))[0])
  {
    var t := TrimStart(s);
    var r := TrimEnd(t);
    if r == [] {
      assert t == [];
    } else {
      var k :| 0 <= k < |r|;
      assert r[k] == t[k];
      if |t| > 0 {
        assert !IsWhitespace(s[|s| - |t|]);
      }
      assert r[0] == t[0];
    }
  }

  /** `s.trim()` is falsy (the empty string) exactly when `s` is blank. */
  lemma TrimEmptyIffBlank(s: string)
    ensures Trim(s) == [] <==> Blank(s)
  {
    StrippedEmptyIffBlank(s);
  }

  /** `r` is the part of `s` starting at index `k`, and every character of
      `s` before or after that part is whitespace. */
  ghost predicate MiddleBetweenBlanks(s: string, r: string, k: int) {
    && 0 <= k <= |s| - |r|
    && (forall i :: 0 <= i < |r| ==> r[i] == s[k + i])
    && (forall i :: 0 <= i < k ==> IsWhitespace(s[i]))
    && (forall i :: k + |r| <= i < |s| ==> IsWhitespace(s[i]))
  }

  /** `s.trim()` is a contiguous middle part of `s`, and everything cut off
      before and after it is whitespace: trimming only removes the blank
      ends. */
  lemma TrimKeepsMiddle(s: string)
    ensures exists k :: MiddleBetweenBlanks(s, Trim(s), k)
  {
    var t := TrimStart(s);
    var r := TrimEnd(t);
    var k := |s| - |t|;
    assert Trim(s) == r;
    forall i | 0 <= i < |t|
      ensures t[i] == s[k + i]
    {
      if |t| == |s| {
        assert t == s;
      }
    }
    forall i | k + |r| <= i < |s|
      ensures IsWhitespace(s[i])
    {
      assert s[i] == t[i - k];
    }
    assert MiddleBetweenBlanks(s, r, k);
  }

  /** `toLowerCase` on one character, for the Latin capital letters A-Z. */
  function LowerChar(c: char): (r: char)
  {
    if 'A' <= c <= 'Z' then (c as int + 32) as char else c
  }

  /** `s.toLowerCase()`, character by character. */
  function Lower(s: string): (r: string)
    ensures |r| == |s|
    ensures forall i :: 0 <= i < |s| ==> r[i] == LowerChar(s[i])
  {
    seq(|s|, i requires 0 <= i < |s| => LowerChar(s[i]))
  }

  /** Lower-casing leaves no capital letters behind, so doing it twice is the
      same as doing it once. */
  lemma LowerIdempotent(s: string)
    ensures Lower(Lower(s)) == Lower(s)
    ensures forall i :: 0 <= i < |s| ==> !('A' <= Lower(s)[i] <= 'Z')
  {
  }

  /** `needle` occurs in `hay` starting at index `i`. */
  ghost predicate OccursAt(hay: string, needle: string, i: int) {
    0 <= i && i + |needle| <= |hay| && hay[i..i + |needle|] == needle
  }

  /** `hay.includes(needle)`: some position of `hay` starts a copy of `needle`. */
  ghost predicate Contains(hay: string, needle: string) {
    exists i :: OccursAt(hay, needle, i)
  }

  /** `hay` begins with `prefix`. */
  predicate StartsWith(hay: string, prefix: string) {
    |prefix| <= |hay| && hay[..|prefix|] == prefix
  }

  /** `hay.includes(needle)`, computed by trying every start position from the
      left. */
  function Includes(hay: string, needle: string): (r: bool)
    ensures StartsWith(hay, needle) ==> r
    ensures r ==> |needle| <= |hay|
    decreases |hay|
  {
    StartsWith(hay, needle) || (hay != [] && Includes(hay[1..], needle))
  }

  /** The left-to-right search finds `needle` exactly when it occurs somewhere. */
  lemma {:induction false} IncludesIffContains(hay: string, needle: string)
    ensures Includes(hay, needle) <==> Contains(hay, needle)
    decreases |hay|
  {
    if StartsWith(hay, needle) {
      assert OccursAt(hay, needle, 0);
    } else if hay != [] {
      assert !OccursAt(hay, needle, 0);
      forall i | OccursAt(hay, needle, i) && i > 0
        ensures OccursAt(hay[1..], needle, i - 1)
      {
        SliceOfTail(hay, i - 1, i - 1 + |needle|);
      }
      IncludesIffContains(hay[1..], needle);
      if Includes(hay[1..], needle) {
        var j :| OccursAt(hay[1..], needle, j);
        SliceOfTail(hay, j, j + |needle|);
        assert OccursAt(hay, needle, j + 1);
      }
    } else {
      assert forall i :: OccursAt(hay, needle, i) ==> StartsWith(hay, needle);
    }
  }

  /** A slice of the tail is the slice of the whole shifted by one. */
  lemma SliceOfTail(s: string, a: int, b: int)
    requires 0 <= a <= b <= |s| - 1
    ensures s[1..][a..b] == s[a + 1..b + 1]
  {
    assert forall k :: 0 <= k < b - a ==> s[1..][a..b][k] == s[a + 1 + k];
  }

  /** Every string contains the empty string: an empty search matches everything. */
  lemma EmptyNeedleEverywhere(hay: string)
    ensures Includes(hay, [])
  {
    assert StartsWith(hay, []);
  }

  /** A string contains every string glued into it. */
  lemma ContainsMiddle(a: string, b: string, c: string)
    ensures Includes(a + b + c, b)
  {
    assert (a + b + c)[|a|..|a| + |b|] == b;
    assert OccursAt(a + b + c, b, |a|);
    IncludesIffContains(a + b + c, b);
  }

  /** `s.slice(0, n)` for `n >= 0`: the first `n` characters, or all of `s`
      when it is shorter. */
  function Prefix(s: string, n: nat): (r: string)
    ensures |r| == if |s| < n then |s| else n
    ensures StartsWith(s, r)
  {
    if |s| < n then s else s[..n]
  }
}

=== FILE: workspace.dfy ===
/** The Dashboard's workspace: the chat transcript, the generated document,
    the history list and the flags the handlers set. Each `async` handler is
    split into a synchronous `Begin` step, taken when the user acts, and a
    `Settle` step, taken when the awaited promise settles. Identifiers that
    the code draws from the clock are parameters. */
module Workspace {
  import opened Wrappers
  import opened Text
  import opened Locale
  import Layout
  import History
  import Seqs
  import GeminiService

  datatype Role = User | Assistant

  /** A chat message; never changed after it is appended. */
  datatype Message = Message(id: string, role: Role, text: string)

  datatype Dashboard = Dashboard(
    panes: Layout.Panes,
    prompt: string,
    searchQuery: string,
    messages: seq<Message>,
    documentContent: string,
    loading: bool,
    isRefining: bool,
    isEditing: bool,
    historyDocs: seq<History.DocHistory>,
    editingId: Option<int>,
    tempTitle: string,
    activeMenuId: Option<int>)

  /** The state when the Dashboard mounts. */
  const Initial: Dashboard :=
    Dashboard(Layout.Initial, "", "", [], "", false, false, false, History.Seeded, None, "", None)

  /** The document kind every chat request asks for. */
  const DocumentKind: string := "document"

  /** The assistant's reply after a successful generation. */
  function DraftedNotice(lang: Language): string {
    match lang
    case Th => ThDraftedNotice
    case En => EnDraftedNotice
  }

  const ThDraftedNotice: string := "ฉันได้ร่างเอกสารให้คุณแล้วทางด้านขวา"
  const EnDraftedNotice: string := "I've drafted the document for you in the preview panel."
  const ErrorNotice: string := "Sorry, I encountered an error generating that."

  // ---------------------------------------------------------------- send

  /** The outcome of pressing Send (or Enter): nothing, or a started request
      for `userMsg`. */
  datatype SendStart = Ignored | Started(next: Dashboard, userMsg: string)

  /** The synchronous part of `handleSend`. A prompt that trims to nothing is
      ignored. Otherwise the untrimmed prompt becomes a user message, the
      draft is cleared, `loading` is set, editing stops and the preview opens.
      There is no check of `loading`. */
  function BeginSend(d: Dashboard, msgId: string): (r: SendStart)
    ensures r.Ignored? <==> Blank(d.prompt)
    ensures r.Started? ==>
      && r.userMsg == d.prompt
      && r.next.messages == d.messages + [Message(msgId, User, d.prompt)]
      && r.next.prompt == ""
      && r.next.loading && !r.next.isEditing && r.next.panes.isPreviewOpen
      && r.next.documentContent == d.documentContent
      && r.next.historyDocs == d.historyDocs
      && r.next.isRefining == d.isRefining
      && r.next.panes.previewWidth == d.panes.previewWidth
    ensures r.Started? ==>
      && r.next.(prompt := d.prompt, messages := d.messages, loading := d.loading,
                 isEditing := d.isEditing, panes := d.panes) == d
      && r.next.panes == d.panes.(isPreviewOpen := true)
  {
    TrimEmptyIffBlank(d.prompt);
    if Trim(d.prompt) == "" then Ignored
    else
      Started(d.(prompt := "",
                 messages := d.messages + [Message(msgId, User, d.prompt)],
                 loading := true,
                 isEditing := false,
                 panes := d.panes.(isPreviewOpen := true)),
              d.prompt)
  }

  /** The part of `handleSend` after `generateDocument` settles. On success the
      document is replaced, one assistant message is appended and one entry is
      put at the head of the history; on a rejection one error message is
      appended and nothing else changes. `loading` is cleared either way. */
  function SettleSend(d: Dashboard, userMsg: string, lang: Language, outcome: Settled<string>,
                      replyId: string, docId: int): (r: Dashboard)
    ensures !r.loading
    ensures r.prompt == d.prompt && r.panes == d.panes && r.isRefining == d.isRefining
    ensures |r.messages| == |d.messages| + 1 && r.messages[..|d.messages|] == d.messages && r.messages[|d.messages|].role == Assistant
    ensures outcome.Fulfilled? ==>
      && r.documentContent == outcome.value
      && r.messages == d.messages + [Message(replyId, Assistant, DraftedNotice(lang))]
      && r.historyDocs == [History.NewEntry(docId, userMsg)] + d.historyDocs
    ensures outcome.Rejected? ==>
      && r.documentContent == d.documentContent
      && r.messages == d.messages + [Message(replyId, Assistant, ErrorNotice)]
      && r.historyDocs == d.historyDocs
    ensures r.(documentContent := d.documentContent, messages := d.messages,
               historyDocs := d.historyDocs, loading := d.loading) == d
  {
    match outcome
    case Fulfilled(text) =>
      d.(documentContent := text,
         messages := d.messages + [Message(replyId, Assistant, DraftedNotice(lang))],
         historyDocs := [History.NewEntry(docId, userMsg)] + d.historyDocs,
         loading := false)
    case Rejected(_) =>
      d.(messages := d.messages + [Message(replyId, Assistant, ErrorNotice)],
         loading := false)
  }

  /** Whether the Send button is enabled: a non-blank draft and no request in
      flight. The Enter key does not consult this. */
  predicate SendButtonEnabled(d: Dashboard) {
    Trim(d.prompt) != "" && !d.loading
  }

  /** The button starts a request whenever it is enabled; the Enter key also
      starts one while another is still loading, so requests can overlap. */
  lemma NoSingleFlight(d: Dashboard, msgId: string)
    ensures SendButtonEnabled(d) ==> BeginSend(d, msgId).Started?
    ensures d.loading && !Blank(d.prompt) ==> BeginSend(d, msgId).Started? && BeginSend(d, msgId).next.loading
  {
    TrimEmptyIffBlank(d.prompt);
  }

  /** A send of a non-blank prompt whose request resolves appends exactly
      the user message and the notice, and prepends exactly one entry. */
  lemma SendResolved(d: Dashboard, msgId: string, lang: Language, g: Settled<string>,
                     replyId: string, docId: int)
    requires !Blank(d.prompt) && g.Fulfilled?
    ensures BeginSend(d, msgId).Started? && BeginSend(d, msgId).userMsg == d.prompt
    ensures
      var r := SettleSend(BeginSend(d, msgId).next, d.prompt, lang, g, replyId, docId);
      && r.messages == d.messages + [Message(msgId, User, d.prompt), Message(replyId, Assistant, DraftedNotice(lang))]
      && r.documentContent == g.value
      && r.historyDocs == [History.NewEntry(docId, d.prompt)] + d.historyDocs
      && !r.loading && r.prompt == "" && r.panes.isPreviewOpen
  {
    var s := BeginSend(d, msgId);
    assert s.Started? && s.userMsg == d.prompt;
    var n := s.next;
    var m1 := Message(msgId, User, d.prompt);
    var m2 := Message(replyId, Assistant, DraftedNotice(lang));
    assert n.messages == d.messages + [m1] && n.prompt == "" && n.panes.isPreviewOpen;
    assert n.historyDocs == d.historyDocs;
    var r := SettleSend(n, d.prompt, lang, g, replyId, docId);
    assert r.messages == n.messages + [m2];
    assert r.prompt == n.prompt && r.panes == n.panes;
    assert (d.messages + [m1]) + [m2] == d.messages + [m1, m2];
  }

  /** A whole send against the generation service: since `generateDocument`
      never rejects, a non-blank prompt always yields the user message and the
      assistant's notice, a non-empty document and one new history entry
      titled after the prompt. */
  lemma SendAgainstService(d: Dashboard, msgId: string, lang: Language, apiKey: Option<string>,
                           provider: GeminiService.Provider, replyId: string, docId: int)
    requires !Blank(d.prompt)
    ensures BeginSend(d, msgId).Started? && BeginSend(d, msgId).userMsg == d.prompt
    ensures
      var r := SettleSend(BeginSend(d, msgId).next, d.prompt, lang,
                          GeminiService.GenerateDocument(d.prompt, DocumentKind, lang, apiKey, provider),
                          replyId, docId);
      && r.messages == d.messages + [Message(msgId, User, d.prompt), Message(replyId, Assistant, DraftedNotice(lang))]
      && r.documentContent != ""
      && r.historyDocs == [History.NewEntry(docId, d.prompt)] + d.historyDocs
      && !r.loading && r.prompt == "" && r.panes.isPreviewOpen
  {
    var g := GeminiService.GenerateDocument(d.prompt, DocumentKind, lang, apiKey, provider);
    SendResolved(d, msgId, lang, g, replyId, docId);
  }

  // ----------------------------------------------------------- auto-correct

  datatype RefineStart = NothingToRefine | Refining(next: Dashboard, content: string)

  /** The synchronous part of `handleAutoCorrect`: an empty document is left
      alone; otherwise `isRefining` is set and the document is sent off. */
  function BeginAutoCorrect(d: Dashboard): (r: RefineStart)
    ensures r.NothingToRefine? <==> d.documentContent == ""
    ensures r.Refining? ==> r.content == d.documentContent && r.next.isRefining
    ensures r.Refining? ==> r.next.(isRefining := d.isRefining) == d
  {
    if d.documentContent == "" then NothingToRefine
    else Refining(d.(isRefining := true), d.documentContent)
  }

  /** The part of `handleAutoCorrect` after `refineDocument` settles: only the
      document changes, and only on success; `isRefining` is cleared. */
  function SettleAutoCorrect(d: Dashboard, outcome: Settled<string>): (r: Dashboard)
    ensures !r.isRefining
    ensures r.documentContent == (if outcome.Fulfilled? then outcome.value else d.documentContent)
    ensures r.(documentContent := d.documentContent, isRefining := d.isRefining) == d
  {
    match outcome
    case Fulfilled(text) => d.(documentContent := text, isRefining := false)
    case Rejected(_) => d.(isRefining := false)
  }

  /** A whole auto-correct against the generation service: the transcript and
      the history are untouched, `isRefining` ends cleared, and when the
      provider cannot be used the document keeps its old text as a prefix. */
  lemma AutoCorrectAgainstService(d: Dashboard, lang: Language, apiKey: Option<string>,
                                  provider: GeminiService.Provider)
    requires d.documentContent != ""
    ensures
      var s := BeginAutoCorrect(d);
      && s.Refining?
      && var r := SettleAutoCorrect(s.next, GeminiService.RefineDocument(s.content, lang, apiKey, provider));
      && r.messages == d.messages && r.historyDocs == d.historyDocs && r.prompt == d.prompt
      && !r.isRefining && r.documentContent != ""
      && (apiKey.None? || apiKey == Some("") ==> StartsWith(r.documentContent, d.documentContent))
  {
  }

  // ------------------------------------------------------ chat and editing

  /** New Chat and Clear Chat (one handler for both buttons): the transcript
      and the document are emptied; the history and the draft are kept. */
  function ClearChat(d: Dashboard): (r: Dashboard)
    ensures r.messages == [] && r.documentContent == ""
    ensures r.(messages := d.messages, documentContent := d.documentContent) == d
  {
    d.(messages := [], documentContent := "")
  }

  /** The Edit/Save button of the preview header. */
  function ToggleEditing(d: Dashboard): (r: Dashboard)
    ensures r.isEditing != d.isEditing && r.(isEditing := d.isEditing) == d
  {
    d.(isEditing := !d.isEditing)
  }

  /** Typing into the document while editing replaces it wholesale; the
      history is not updated. */
  function EditDocument(d: Dashboard, text: string): (r: Dashboard)
    ensures r.documentContent == text && r.(documentContent := d.documentContent) == d
  {
    d.(documentContent := text)
  }

  // ------------------------------------------------------------- history

  /** `deleteHistoryItem`: only the list changes; the live transcript and
      document stay, even when they came from the deleted entry. */
  function DeleteHistoryItem(d: Dashboard, id: int): (r: Dashboard)
    ensures forall i :: 0 <= i < |r.historyDocs| ==> r.historyDocs[i].id != id
    ensures r.historyDocs == History.Delete(d.historyDocs, id)
    ensures r.(historyDocs := d.historyDocs) == d
  {
    d.(historyDocs := History.Delete(d.historyDocs, id))
  }

  /** `startEditingHistory`: the entry's title is copied into the editor and
      its menu closes. */
  function StartEditingHistory(d: Dashboard, item: History.DocHistory): (r: Dashboard)
    ensures r.editingId == Some(item.id) && r.tempTitle == item.title && r.activeMenuId.None?
    ensures r.(editingId := d.editingId, tempTitle := d.tempTitle, activeMenuId := d.activeMenuId) == d
  {
    d.(editingId := Some(item.id), tempTitle := item.title, activeMenuId := None)
  }

  /** `saveEditingHistory`: a title that is blank after trimming changes
      nothing; any other title is stored, untrimmed, on every entry with the
      id. The editor closes in both cases. */
  function SaveEditingHistory(d: Dashboard, id: int): (r: Dashboard)
    ensures r.editingId.None?
    ensures Blank(d.tempTitle) ==> r.historyDocs == d.historyDocs
    ensures !Blank(d.tempTitle) ==> r.historyDocs == History.Rename(d.historyDocs, id, d.tempTitle)
    ensures r.(historyDocs := d.historyDocs, editingId := d.editingId) == d
  {
    TrimEmptyIffBlank(d.tempTitle);
    var docs := if Trim(d.tempTitle) != "" then History.Rename(d.historyDocs, id, d.tempTitle) else d.historyDocs;
    d.(historyDocs := docs, editingId := None)
  }

  /** `cancelEditingHistory`. */
  function CancelEditingHistory(d: Dashboard): (r: Dashboard)
    ensures r.editingId.None? && r.(editingId := d.editingId) == d
  {
    d.(editingId := None)
  }

  /** `toggleMenu`: opens the entry's menu, or closes it if it is the open one. */
  function ToggleMenu(d: Dashboard, id: int): (r: Dashboard)
    ensures r.activeMenuId == Some(id) <==> d.activeMenuId != Some(id)
    ensures r.activeMenuId.Some? ==> r.activeMenuId == Some(id)
    ensures r.(activeMenuId := d.activeMenuId) == d
  {
    d.(activeMenuId := if d.activeMenuId == Some(id) then None else Some(id))
  }

  /** The sidebar shows the history filtered by the search box: exactly the
      matching entries, in list order. */
  function FilteredHistory(d: Dashboard): (r: seq<History.DocHistory>)
    ensures Seqs.IsSubsequence(r, d.historyDocs)
    ensures forall i :: 0 <= i < |r| ==> r[i] in d.historyDocs && History.Matches(r[i], d.searchQuery)
    ensures forall i :: 0 <= i < |d.historyDocs| && History.Matches(d.historyDocs[i], d.searchQuery) ==>
      d.historyDocs[i] in r
    ensures d.searchQuery == "" ==> r == d.historyDocs
  {
    History.SearchEmptyKeepsAll(d.historyDocs);
    History.Search(d.historyDocs, d.searchQuery)
  }

  // ------------------------------------------------------- the whole panel

  /** Every event the Dashboard handles, the settling of its two requests
      included. */
  datatype Intent =
    | LayoutEvent(e: Layout.Event)
    | TypePrompt(text: string)
    | TypeSearch(text: string)
    | TypeTitle(text: string)
    | Send(msgId: string)
    | SendSettled(userMsg: string, lang: Language, outcome: Settled<string>, replyId: string, docId: int)
    | AutoCorrect
    | AutoCorrectSettled(outcome: Settled<string>)
    | Clear
    | ToggleEdit
    | EditText(text: string)
    | DeleteItem(id: int)
    | StartRename(item: History.DocHistory)
    | SaveRename(id: int)
    | CancelRename
    | MenuToggled(id: int)

  /** One event. Only layout events move the panes' width; only the prompt
      box and Send touch the draft; the transcript changes only through
      sends and New Chat; the history list changes only through settled
      sends, deletions and renames. */
  function Step(d: Dashboard, i: Intent): (r: Dashboard)
    ensures !i.LayoutEvent? ==> r.panes.previewWidth == d.panes.previewWidth
    ensures !i.TypePrompt? && !i.Send? ==> r.prompt == d.prompt
    ensures !i.SendSettled? && !i.DeleteItem? && !i.SaveRename? ==> r.historyDocs == d.historyDocs
    ensures !i.Send? && !i.SendSettled? && !i.Clear? ==> r.messages == d.messages
    ensures i.TypePrompt? ==> r.prompt == i.text
    ensures i.TypeSearch? ==> r.searchQuery == i.text
    ensures i.TypeTitle? ==> r.tempTitle == i.text
    ensures i.Send? && Blank(d.prompt) ==> r == d
    ensures i.Send? && !Blank(d.prompt) ==>
      && r.prompt == "" && r.loading
      && r.messages == d.messages + [Message(i.msgId, User, d.prompt)]
    ensures i.Clear? ==> r.messages == [] && r.documentContent == ""
    ensures i.DeleteItem? ==> r.historyDocs == History.Delete(d.historyDocs, i.id)
  {
    match i
    case LayoutEvent(e) => d.(panes := Layout.Step(d.panes, e))
    case TypePrompt(t) => d.(prompt := t)
    case TypeSearch(t) => d.(searchQuery := t)
    case TypeTitle(t) => d.(tempTitle := t)
    case Send(id) => (match BeginSend(d, id) case Ignored => d case Started(n, _) => n)
    case SendSettled(u, l, o, rid, did) => SettleSend(d, u, l, o, rid, did)
    case AutoCorrect => (match BeginAutoCorrect(d) case NothingToRefine => d case Refining(n, _) => n)
    case AutoCorrectSettled(o) => SettleAutoCorrect(d, o)
    case Clear => ClearChat(d)
    case ToggleEdit => ToggleEditing(d)
    case EditText(t) => EditDocument(d, t)
    case DeleteItem(id) => DeleteHistoryItem(d, id)
    case StartRename(item) => StartEditingHistory(d, item)
    case SaveRename(id) => SaveEditingHistory(d, id)
    case CancelRename => CancelEditingHistory(d)
    case MenuToggled(id) => ToggleMenu(d, id)
  }

  function Run(d: Dashboard, intents: seq<Intent>): Dashboard
    decreases |intents|
  {
    if intents == [] then d else Run(Step(d, intents[0]), intents[1..])
  }

  /** Whatever the user does, the preview width stays strictly between 20 and
      80 percent: only the resize rule writes it. */
  lemma {:induction false} RunKeepsWidthInBounds(d: Dashboard, intents: seq<Intent>)
    requires Layout.WidthInBounds(d.panes.previewWidth)
    ensures Layout.WidthInBounds(Run(d, intents).panes.previewWidth)
    decreases |intents|
  {
    if intents != [] {
      StepKeepsWidthInBounds(d, intents[0]);
      RunKeepsWidthInBounds(Step(d, intents[0]), intents[1..]);
    }
  }

  lemma StepKeepsWidthInBounds(d: Dashboard, i: Intent)
    requires Layout.WidthInBounds(d.panes.previewWidth)
    ensures Layout.WidthInBounds(Step(d, i).panes.previewWidth)
  {
    match i
    case LayoutEvent(e) =>
      Layout.RunKeepsWidthInBounds(d.panes, [e]);
      assert Layout.Run(d.panes, [e]) == Layout.Run(Layout.Step(d.panes, e), []);
    case _ =>
  }

  /** Each intent runs the handler of the control that raises it, so a
      replayed interleaving goes through the modelled handlers and their
      contracts. */
  lemma StepRunsHandler(d: Dashboard, i: Intent)
    ensures i.LayoutEvent? ==> Step(d, i) == d.(panes := Layout.Step(d.panes, i.e))
    ensures i.Send? && BeginSend(d, i.msgId).Started? ==> Step(d, i) == BeginSend(d, i.msgId).next
    ensures i.SendSettled? ==>
      Step(d, i) == SettleSend(d, i.userMsg, i.lang, i.outcome, i.replyId, i.docId)
    ensures i.AutoCorrect? && BeginAutoCorrect(d).NothingToRefine? ==> Step(d, i) == d
    ensures i.AutoCorrect? && BeginAutoCorrect(d).Refining? ==> Step(d, i) == BeginAutoCorrect(d).next
    ensures i.AutoCorrectSettled? ==> Step(d, i) == SettleAutoCorrect(d, i.outcome)
    ensures i.Clear? ==> Step(d, i) == ClearChat(d)
    ensures i.ToggleEdit? ==> Step(d, i) == ToggleEditing(d)
    ensures i.EditText? ==> Step(d, i) == EditDocument(d, i.text)
    ensures i.DeleteItem? ==> Step(d, i) == DeleteHistoryItem(d, i.id)
    ensures i.StartRename? ==> Step(d, i) == StartEditingHistory(d, i.item)
    ensures i.SaveRename? ==> Step(d, i) == SaveEditingHistory(d, i.id)
    ensures i.CancelRename? ==> Step(d, i) == CancelEditingHistory(d)
    ensures i.MenuToggled? ==> Step(d, i) == ToggleMenu(d, i.id)
  {
  }
}

=== FILE: wrappers.dfy ===
/** Small value wrappers shared by the rest of the model. */
module Wrappers {

  /** A value that may be absent: JavaScript's `null`/`undefined` alternatives. */
  datatype Option<+T> = None | Some(value: T)

  /** How a JavaScript promise settles: it either resolves with a value or
      rejects with a reason. An `async` function that throws inside its body
      yields `Rejected`. */
  datatype Settled<+T> = Fulfilled(value: T) | Rejected(reason: string)
}
